=== FILE: README.md ===
# Protocol Racer core, modelled in Dafny

Protocol Racer is a classroom web application that contrasts HTTP/2 and
HTTP/3 with synthetic data. This project models the two pieces of it that
hold real logic:

- **The waterfall generator and the phase statistics**
  (`frontend/src/utils/waterfallUtils.ts`).
  - `generateWaterfallData` builds a batch of fake per-resource timing
    records for a protocol and a simulated network condition.
  - `getPhaseStats` reduces a batch to an average, a minimum and a maximum
    for each of the six phases: dns, tcp, ssl, request, wait and response.
- **The fake-resource endpoints** (`ResourceController.java`).
  - `getCss` and `getJs` pad a header with a repeated snippet up to a size
    target.
  - `getImage` fills a byte array with a counting pattern.
  - `getFastApi` and `getSlowApi` return a small map.

Files:

| file | module | models |
|---|---|---|
| `network_types.dfy` | `NetworkTypes` | the record shapes of `frontend/src/types/index.ts`; the preset conditions and the slider ranges |
| `waterfall_utils.dfy` | `WaterfallUtils` | the generator, as a method with a loop proved against the functions `RecordAt`/`Batch`; the statistics, as functions |
| `resource_controller.dfy` | `ResourceController` | the five endpoints; the `StringBuilder` loop appears once, as `FillToTarget` |
| `rounding.dfy` | `Rounding` | `Math.floor` and `Math.round` on real numbers |
| `text.dfy` | `Text` | decimal rendering of numbers, ASCII upper-casing |
| `java_lang.dfy` | `JavaLang` | a nullable `Integer`, `int`, `byte` and the `(byte)` cast |

Modelling choices:

- **Randomness.** Each `Math.random()` call is an explicit parameter. Every
  record consumes one `Draw`, which holds the draws for wait, response and
  size, in that order. `ValidDraw` states that each draw lies in [0, 1).
- **Numbers.** They are exact `real`s. `Math.round(x)` is `floor(x + 1/2)`:
  the nearest integer, with halves rounded towards +infinity. JavaScript
  defines it the same way, for negative arguments too.
- **Empty batches.** `getPhaseStats` has no defined result for an empty
  batch, so `GetPhaseStats` requires a non-empty one. Its callers never pass
  an empty batch: `VisualizationPage.tsx:358` checks
  `waterfallData.length > 0`, and `:47-49` passes a freshly generated batch.
- **Sizes.** Java's `StringBuilder.length()` counts UTF-16 code units, and a
  Dafny `string` counts characters. Every character of the bodies is in
  the Basic Multilingual Plane, so the two counts agree.
- **Labels.** The record labels are modelled as sequences of Unicode code
  points, not as JavaScript's UTF-16 code units. Four of the five icons
  (📄, 🎨, 🖼️, 🔗) lie outside the Basic Multilingual Plane and take two
  code units each. Three of them (📄, 🖼️, 🔗) share the first code unit
  `\uD83D`, so `name.charAt(0)` does not tell their labels apart.
  `IconsDiffer` compares first code points. `NamesDistinct` still holds
  of the UTF-16 strings, because UTF-16 encoding is injective.

## Model

| member | source | states |
|---|---|---|
| `WaterfallUtils.GenerateWaterfallData` | frontend/src/utils/waterfallUtils.ts:3-45 | the batch has 8 records for http2 and 12 for http3; record i has id i+1 and type `[html, css, js, image, api][i mod 5]`; record i is `RecordAt(i)`, built from the i-th draw (label, shared handshake phases, jittered wait/response/size) |
| `WaterfallUtils.RecordsAreBatch` | frontend/src/utils/waterfallUtils.ts:21-44 | a list whose i-th entry is `RecordAt(i)` for every index is exactly `Batch`, so the generator's output is the batch the statistics lemmas speak about |
| `WaterfallUtils.Batch` | frontend/src/utils/waterfallUtils.ts:21-44 | the batch holds one record per draw, and its i-th record is the record built at index i from the i-th draw |
| `WaterfallUtils.RecordAt` | frontend/src/utils/waterfallUtils.ts:29-41 | the record built at index i from one draw: id i+1, type `[html, css, js, image, api][i mod 5]`, its label, the four handshake phases, the jittered wait and response, the type's colour and the size (no contract of its own; the lemmas below state its properties) |
| `WaterfallUtils.LatencyMultiplier` | frontend/src/utils/waterfallUtils.ts:7 | the latency factor is exactly 1 when there is no latency, and at least 1 for any non-negative latency |
| `WaterfallUtils.PacketLossImpact` | frontend/src/utils/waterfallUtils.ts:8 | the loss factor is exactly 1 when there is no loss, and at least 1 for any non-negative loss |
| `WaterfallUtils.HandshakeTime` | frontend/src/utils/waterfallUtils.ts:33-35 | with no latency and no loss a handshake phase is its base |
| `WaterfallUtils.DnsTime` | frontend/src/utils/waterfallUtils.ts:33 | with no latency and no loss, dns is 25 for http2 and 10 for http3 (the bases of line 25) |
| `WaterfallUtils.TcpTime` | frontend/src/utils/waterfallUtils.ts:34 | with no latency and no loss, tcp is 50 for http2 and 15 for http3 (the bases of line 26) |
| `WaterfallUtils.SslTime` | frontend/src/utils/waterfallUtils.ts:35 | with no latency and no loss, ssl is 35 for http2 and 20 for http3 (the bases of line 27) |
| `WaterfallUtils.RequestTime` | frontend/src/utils/waterfallUtils.ts:36 | with no latency the request phase is 20 |
| `WaterfallUtils.WaitTime` | frontend/src/utils/waterfallUtils.ts:37 | with no latency and a draw in [0,1), the wait phase lies in [100, 150] |
| `WaterfallUtils.ResponseTime` | frontend/src/utils/waterfallUtils.ts:38 | at 10 Mbps and a draw in [0,1), the response phase lies in [50, 80] |
| `WaterfallUtils.SizeKb` | frontend/src/utils/waterfallUtils.ts:40 | the size is 50 plus the number of whole 1/500 steps in the draw: (size − 50) ≤ 500·r < (size − 49) |
| `WaterfallUtils.RequestName` | frontend/src/utils/waterfallUtils.ts:31 | the label `${icon} ${TYPE} ${i + 1}` (no contract of its own): `RequestNameParts` shows it starts with the type's icon and ends with the decimal 1-based index, `TypeLabels` that the upper-cased type names are HTML, CSS, JS, IMAGE and API, and `NamesDistinct` that no two labels of a batch coincide |
| `WaterfallUtils.RequestNameParts` | frontend/src/utils/waterfallUtils.ts:31 | a label starts with the type's icon and ends with the decimal 1-based index |
| `WaterfallUtils.RecordBounds` | frontend/src/utils/waterfallUtils.ts:33-40 | with latency ≥ 0, packet loss ≥ 0, bandwidth > 0 and draws in [0,1), all six phases of every record are non-negative integers and the size lies in [50, 549] |
| `WaterfallUtils.HandshakeBounds` | frontend/src/utils/waterfallUtils.ts:25-36 | with non-negative latency and loss, dns/tcp/ssl are at least their protocol bases (25/50/35 for http2, 10/15/20 for http3) and request is at least 20 |
| `WaterfallUtils.WaitBounds` | frontend/src/utils/waterfallUtils.ts:37 | the wait phase for a draw in [0,1) lies between its values for the draws 0 and 1, which are round(100·m) and round(150·m) for the latency multiplier m; it is at least 100 |
| `WaterfallUtils.JitteredDrawMonotone` | frontend/src/utils/waterfallUtils.ts:37 | a larger random draw never gives a smaller jittered phase, whatever the (non-negative) spread and scale |
| `WaterfallUtils.ResponseFormula` | frontend/src/utils/waterfallUtils.ts:38 | dividing by bandwidth/10 is scaling by 10/bandwidth: response = round((50+30r)·10/bandwidth), which is ≥ 0 |
| `WaterfallUtils.SizeBounds` | frontend/src/utils/waterfallUtils.ts:40 | a size draw in [0,1) gives an integer size in [50, 549] |
| `WaterfallUtils.HandshakeAtMost` | frontend/src/utils/waterfallUtils.ts:33-35 | with latency in [0, 300] and loss in [0, 10] (latency factor in [1, 4], loss factor in [1, 1.2]), a handshake phase with a base divisible by 5 is at most 4.8 times its base |
| `WaterfallUtils.SliderHandshakeAtMost` | frontend/src/utils/waterfallUtils.ts:33-36 | for conditions in the sliders' ranges, dns, tcp and ssl are at most 4.8 times their protocol base (120/240/168 for http2, 48/72/96 for http3) and request is at most 80 |
| `WaterfallUtils.SliderWaitAtMost` | frontend/src/utils/waterfallUtils.ts:37 | for conditions in the sliders' ranges and a draw in [0,1), the wait phase is at most 600 |
| `WaterfallUtils.SliderResponseAtMost` | frontend/src/utils/waterfallUtils.ts:38 | for conditions in the sliders' ranges (bandwidth ≥ 0.5) and a draw in [0,1), the response phase is at most 1600 |
| `WaterfallUtils.SliderRecordBounds` | frontend/src/utils/waterfallUtils.ts:33-38 | every record generated for a condition in the sliders' ranges has all six phases under those ceilings |
| `NetworkTypes.PresetsInSliderRange` | frontend/src/components/NetworkConditionSimulator.tsx:17-43 | each of the five presets (5G, 4G, WiFi, Slow 3G, Fiber) lies within the slider ranges of lines 91-92, 104-105 and 118-119 |
| `WaterfallUtils.LatencyMonotone` | frontend/src/utils/waterfallUtils.ts:33-37 | raising the latency, with loss and draw fixed, never lowers dns, tcp, ssl, request or wait |
| `WaterfallUtils.BandwidthMonotone` | frontend/src/utils/waterfallUtils.ts:38 | raising the bandwidth, with the draw fixed, never raises the response phase |
| `WaterfallUtils.FiveGHttp2Example` | frontend/src/utils/waterfallUtils.ts:25-36 | for http2 under the 5G preset (latency 20, loss 0): dns 30, tcp 60, ssl 42, request 24 |
| `WaterfallUtils.Slow3GHttp3Example` | frontend/src/utils/waterfallUtils.ts:25-36 | for http3 under the Slow 3G preset (latency 100, loss 3), where rounding matters: dns 21, tcp 32, ssl 42, request 40 |
| `WaterfallUtils.SharedPhases` | frontend/src/utils/waterfallUtils.ts:25-36 | dns, tcp, ssl and request are equal across every record of a batch and depend only on protocol and condition |
| `WaterfallUtils.RedrawChangesOnlyRandomFields` | frontend/src/utils/waterfallUtils.ts:23-41 | two batches for the same protocol and condition agree on every field except wait, response and size |
| `WaterfallUtils.NamesDistinct` | frontend/src/utils/waterfallUtils.ts:31 | no two records of a batch have the same label: labels of different types differ in their icon, labels of the same type differ in their index |
| `WaterfallUtils.TypeLabels` | frontend/src/utils/waterfallUtils.ts:31 | the upper-cased type names in the labels are HTML, CSS, JS, IMAGE and API |
| `WaterfallUtils.Times` | frontend/src/utils/waterfallUtils.ts:59 | `data.map(r => r[phase])`: one value per record, in batch order, each that record's value of the phase |
| `WaterfallUtils.Sum` | frontend/src/utils/waterfallUtils.ts:62 | `reduce((a, b) => a + b, 0)`, folded from the left starting at 0 (no contract of its own; `SumAtLeast` and `SumAtMost` bound it) |
| `WaterfallUtils.Average` | frontend/src/utils/waterfallUtils.ts:62 | the average is the integer nearest to sum/len, with halves going up: sum/len − 1/2 < avg ≤ sum/len + 1/2 |
| `WaterfallUtils.MinOf` | frontend/src/utils/waterfallUtils.ts:63 | `Math.min` over a non-empty list returns an element of the list that is ≤ every element |
| `WaterfallUtils.MaxOf` | frontend/src/utils/waterfallUtils.ts:64 | `Math.max` over a non-empty list returns an element of the list that is ≥ every element |
| `WaterfallUtils.AverageBetween` | frontend/src/utils/waterfallUtils.ts:62-64 | the rounded mean round(sum/len) of a non-empty list of integers lies between its minimum and its maximum |
| `WaterfallUtils.PhaseStat` | frontend/src/utils/waterfallUtils.ts:59-65 | one phase's entry is named after the capitalised field and carries the phase's colour; avg is the rounded mean (sum/len − 1/2 < avg ≤ sum/len + 1/2); min ≤ avg ≤ max; every record's value lies in [min, max]; min and max are attained |
| `WaterfallUtils.GetPhaseStats` | frontend/src/utils/waterfallUtils.ts:47-68 | a non-empty batch gives exactly six entries named Dns, Tcp, Ssl, Request, Wait, Response in that order; each entry's avg is the rounded mean of that phase over the batch, and min ≤ avg ≤ max bound every record's value of that phase |
| `WaterfallUtils.PhaseNamesCapitalized` | frontend/src/utils/waterfallUtils.ts:61 | upper-casing the first letter of dns, tcp, ssl, request, wait, response gives the six reported names |
| `WaterfallUtils.PhaseStatsAttained` | frontend/src/utils/waterfallUtils.ts:63-64 | each reported minimum and maximum is the value of some record |
| `WaterfallUtils.GeneratedBatchStats` | frontend/src/utils/waterfallUtils.ts:58-64 | over a generated batch, the dns, tcp, ssl and request entries have min = avg = max = the batch's shared value |
| `WaterfallUtils.SumAtLeast` | frontend/src/utils/waterfallUtils.ts:62 | if every element is ≥ lo, then the `reduce` sum is ≥ len·lo |
| `WaterfallUtils.SumAtMost` | frontend/src/utils/waterfallUtils.ts:62 | if every element is ≤ hi, then the `reduce` sum is ≤ len·hi |
| `Rounding.Round` | frontend/src/utils/waterfallUtils.ts:33 | `Math.round(x)` is an integer r with x − 1/2 < r ≤ x + 1/2 |
| `Rounding.Floor` | frontend/src/utils/waterfallUtils.ts:40 | `Math.floor(x)` is an integer r with r ≤ x < r + 1 |
| `Text.NatToString` | frontend/src/utils/waterfallUtils.ts:31 | the rendering of an index is a non-empty string of decimal digits with no leading zero |
| `Text.IntToString` | backend/src/main/java/com/asu/http23lab/controller/ResourceController.java:34-36 | Java's rendering of an `int` is non-empty, made of digits and a sign, and starts with `-` exactly when the value is negative |
| `Text.ToUpper` | frontend/src/utils/waterfallUtils.ts:31 | `toUpperCase` on ASCII keeps the length, turns every lower-case letter into its upper-case counterpart (code point − 32) and leaves every other character as it is |
| `Text.Capitalize` | frontend/src/utils/waterfallUtils.ts:61 | `charAt(0).toUpperCase() + slice(1)` keeps the length and every character after the first; a lower-case first letter becomes its upper-case counterpart (code point − 32); a string that starts with no lower-case letter is unchanged |
| `Text.ParseNatToString` | frontend/src/utils/waterfallUtils.ts:31 | the decimal index in a label reads back as the index: parsing the rendering of n gives n |
| `Text.NatToStringInjective` | frontend/src/utils/waterfallUtils.ts:31 | different indices render as different digit strings |
| `Text.IntToStringRoundTrip` | backend/src/main/java/com/asu/http23lab/controller/ResourceController.java:35 | the id and size rendered into a header read back as the same integer, sign included |
| `ResourceController.EffectiveKb` | backend/src/main/java/com/asu/http23lab/controller/ResourceController.java:31 | the size is the parameter when it is present and > 0, and the endpoint default otherwise; it is always > 0 |
| `ResourceController.EffectiveKbStable` | backend/src/main/java/com/asu/http23lab/controller/ResourceController.java:31 | passing the effective size back as the parameter serves the same size |
| `ResourceController.Repeat` | backend/src/main/java/com/asu/http23lab/controller/ResourceController.java:43 | k appended copies of a snippet have length k·len(snippet) |
| `ResourceController.Copies` | backend/src/main/java/com/asu/http23lab/controller/ResourceController.java:42-44 | the number of copies is the least k with header + k·snippet ≥ target: k copies reach the target, k−1 copies do not |
| `ResourceController.CopiesUnique` | backend/src/main/java/com/asu/http23lab/controller/ResourceController.java:42-44 | any count that reaches the target while one fewer does not equals `Copies` |
| `ResourceController.FillToTarget` | backend/src/main/java/com/asu/http23lab/controller/ResourceController.java:41-44 | the loop ends with the header followed by `Copies` whole snippets; length ≥ target; below target + len(snippet) when the header is short; the header alone when it already reaches the target |
| `ResourceController.CssHeader` | backend/src/main/java/com/asu/http23lab/controller/ResourceController.java:34-36 | the CSS header is a single line that opens a `/*` comment and closes it with `*/` just before its line break |
| `ResourceController.JsHeader` | backend/src/main/java/com/asu/http23lab/controller/ResourceController.java:64-66 | the JS header is a single `//` comment line, so the comment ends at its line break and no snippet code is commented out |
| `ResourceController.HeadersShort` | backend/src/main/java/com/asu/http23lab/controller/ResourceController.java:34-36 | for every id and every size whose target fits an int, the CSS and JS headers are under 1024 characters |
| `ResourceController.GetCss` | backend/src/main/java/com/asu/http23lab/controller/ResourceController.java:22-47 | the body is the header `/* fake css file[ id=<id>] size≈<kb>KB */\n` followed by whole copies of the CSS snippet; its length lies in [kb·1024, kb·1024 + len(snippet)); the default size is 2 KB |
| `ResourceController.GetJs` | backend/src/main/java/com/asu/http23lab/controller/ResourceController.java:52-77 | the body is the header `// fake js file[ id=<id>] size≈<kb>KB\n` followed by whole copies of the JS snippet; its length lies in [kb·1024, kb·1024 + len(snippet)); the default size is 4 KB |
| `ResourceController.GetImage` | backend/src/main/java/com/asu/http23lab/controller/ResourceController.java:87-107 | a fresh array of exactly kb·1024 bytes, with the default 16 KB; byte i is `(byte)(i % 256)` |
| `ResourceController.ImagePatternSigned` | backend/src/main/java/com/asu/http23lab/controller/ResourceController.java:103 | pattern values 0..127 stay as they are, 128..255 wrap to −128..−1, and the unsigned reading gives back i mod 256 |
| `JavaLang.NarrowToByte` | backend/src/main/java/com/asu/http23lab/controller/ResourceController.java:103 | the `(byte)` cast gives the signed byte congruent to its argument modulo 256 |
| `JavaLang.NarrowThenUnsigned` | backend/src/main/java/com/asu/http23lab/controller/ResourceController.java:103 | narrowing to a byte and then reading it unsigned gives the value modulo 256 |
| `ResourceController.IdValue` | backend/src/main/java/com/asu/http23lab/controller/ResourceController.java:126 | an absent id becomes JSON null; a present one becomes the same number, within Java's `int` range |
| `ResourceController.ApiBody` | backend/src/main/java/com/asu/http23lab/controller/ResourceController.java:124-127 | the map has exactly the keys type, id and timestamp; type is the given kind; id echoes the parameter, or null when it is absent |
| `ResourceController.GetFastApi` | backend/src/main/java/com/asu/http23lab/controller/ResourceController.java:116-130 | the body's type is "fast" and its id echoes the parameter, possibly null |
| `ResourceController.GetSlowApi` | backend/src/main/java/com/asu/http23lab/controller/ResourceController.java:139-153 | the body's type is "slow" and its id echoes the parameter, possibly null |

## Left out

- The React pages and components, the HTTP client (`apiClient.ts`), both
  health controllers and the build configuration. They are rendering,
  fetch plumbing, a constant or a call into the servlet container.
- The `Math.random()` generator itself. Its draws are parameters. The
  model does not state that they are uniform or independent.
- IEEE-754 double arithmetic. The multipliers, the bandwidth division and
  the rounding are computed on exact reals. A double result that lands on
  the other side of a .5 boundary is not captured. `Math.round` of
  infinities and NaN is not modelled.
- `Thread.sleep`: the artificial delays of 50, 80, 120, 30 and 2000 ms.
- `Instant.now()`: the timestamp is a parameter of the API bodies.
- The `Metrics` record and the page-level simulation flow
  (`VisualizationPage.tsx`). They are view state, not part of this core.
- Spring's binding of the request parameters. A non-numeric `size` or `id`
  is rejected before the endpoint runs.
- `GenerateWaterfallData`: requires bandwidth ≠ 0. The source would
  divide by zero and produce an infinite response time. The slider's
  minimum of 0.5 and the presets never pass 0.
- `GetPhaseStats`: requires a non-empty batch. The source would produce
  NaN for the average and ±Infinity for the minimum and maximum. Its
  callers never pass an empty batch.
- `GetCss`: requires kb·1024 to fit in a Java `int`. For larger sizes the
  multiplication wraps around. The wrapped target can be non-positive
  (kb = 4194304 wraps to exactly 0), which leaves the header alone, or a
  smaller positive size than asked for.
- `GetJs`: requires kb·1024 to fit in a Java `int`, for the same reason as
  `GetCss`.
- `GetImage`: requires kb·1024 to fit in a Java `int`. A wrapped length is
  negative, and the allocation throws `NegativeArraySizeException`; or 0
  (kb = 4194304), an empty image; or a smaller size than asked for.
  The `id` parameter is accepted and unused, as in the source.
- The colour and icon tables are kept only as lookups. No property depends
  on them beyond the icons' first code points being distinct; the first
  UTF-16 code units are not (see "Labels" above).

=== FILE: java_lang.dfy ===
/**
  The few Java value types the resource controller uses: a nullable
  request parameter, 32-bit `int` and signed 8-bit `byte`, and the
  narrowing cast from `int` to `byte`.
 */
module JavaLang {

  /** A nullable `Integer` request parameter. */
  datatype Option<T> = None | Some(value: T)

  newtype int32 = x: int | -0x8000_0000 <= x < 0x8000_0000

  newtype int8 = x: int | -0x80 <= x < 0x80

  const Int32Max: int := 0x7fff_ffff

  /** The `(byte)` cast: keeps the low eight bits, read as two's complement. */
  function NarrowToByte(v: int): (b: int8)
    ensures (b as int - v) % 256 == 0
  {
    ((v + 128) % 256 - 128) as int8
  }

  /** `b & 0xff`: the unsigned reading of a byte. */
  function UnsignedByte(b: int8): (u: int)
    ensures 0 <= u < 256
    ensures (u - b as int) % 256 == 0
  {
    if b < 0 then b as int + 256 else b as int
  }

  /** Narrowing and then reading unsigned recovers the value modulo 256. */
  lemma NarrowThenUnsigned(v: int)
    ensures UnsignedByte(NarrowToByte(v)) == v % 256
  {
    var b := NarrowToByte(v);
    var u := UnsignedByte(b);
    assert (u - v) % 256 == 0;
  }
}

=== FILE: network_types.dfy ===
/**
  The shapes shared by the waterfall generator and its callers: the
  simulated network condition, one synthetic resource-timing record and
  one per-phase summary.
 */
module NetworkTypes {

  datatype Protocol = Http2 | Http3

  datatype ResourceType = Html | Css | Js | Image | Api

  /** Latency in ms, bandwidth in Mbps, packet loss in percent. */
  datatype NetworkCondition = NetworkCondition(
    latency: real,
    bandwidth: real,
    packetLoss: real,
    name: string)

  /** One synthetic resource fetch; the six phases and the size are whole numbers. */
  datatype WaterfallRequest = WaterfallRequest(
    id: int,
    name: string,
    resourceType: ResourceType,
    dns: int,
    tcp: int,
    ssl: int,
    request: int,
    wait: int,
    response: int,
    color: string,
    size: int)

  datatype PhaseStats = PhaseStats(
    name: string,
    avgTime: int,
    minTime: int,
    maxTime: int,
    color: string)

  /** The preset conditions offered next to the custom sliders. */
  const FiveG := NetworkCondition(20.0, 50.0, 0.0, "5G")
  const FourG := NetworkCondition(50.0, 10.0, 1.0, "4G")
  const WiFi := NetworkCondition(30.0, 30.0, 0.5, "WiFi")
  const Slow3G := NetworkCondition(100.0, 1.0, 3.0, "Slow 3G")
  const Fiber := NetworkCondition(10.0, 100.0, 0.0, "Fiber")

  /** The custom sliders' ranges: latency 10..300, bandwidth 0.5..100, packet loss 0..10. */
  predicate InSliderRange(c: NetworkCondition) {
    10.0 <= c.latency <= 300.0 && 0.5 <= c.bandwidth <= 100.0 && 0.0 <= c.packetLoss <= 10.0
  }

  /** Every preset could also be dialled in with the sliders. */
  lemma PresetsInSliderRange()
    ensures InSliderRange(FiveG) && InSliderRange(FourG) && InSliderRange(WiFi)
    ensures InSliderRange(Slow3G) && InSliderRange(Fiber)
  {
  }
}

=== FILE: resource_controller.dfy ===
/**
  The fake-resource endpoints: CSS and JS bodies padded with a repeated
  snippet up to a size target, an image body filled with a byte pattern,
  and the small fast/slow API bodies. The artificial delays are not part of
  this model; the timestamp the API bodies carry is a parameter.
 */
module ResourceController {
  import opened JavaLang
  import opened Text

  const DefaultSizeKb: int := 2
  const DefaultJsSizeKb: int := 4
  const DefaultImageSizeKb: int := 16

  const CssSnippet: string := "body { background: #f5f5f5; }\n.item { margin: 4px; padding: 4px; }\n"
  const JsSnippet: string := "function foo(){ return 42; }\nconst x = foo();\n"

  /** The size in KB an endpoint serves: the parameter when it is present and
      positive, the endpoint's default otherwise. */
  function EffectiveKb(sizeKb: Option<int32>, default: int): (kb: int)
    requires default > 0
    ensures kb > 0
    ensures sizeKb.Some? && sizeKb.value > 0 ==> kb == sizeKb.value as int
    ensures sizeKb.None? || sizeKb.value <= 0 ==> kb == default
  {
    if sizeKb.None? || sizeKb.value <= 0 then default else sizeKb.value as int
  }

  /** Passing the effective size back in as the parameter serves the same size. */
  lemma EffectiveKbStable(sizeKb: Option<int32>, default: int)
    requires 0 < default <= Int32Max
    ensures var kb := EffectiveKb(sizeKb, default);
      kb <= Int32Max && EffectiveKb(Some(kb as int32), default) == kb
  {
  }

  /** `kb * 1024` does not overflow a Java `int`. */
  predicate TargetFits(kb: int) {
    kb * 1024 <= Int32Max
  }

  /** `k` copies of `s`, one after the other. */
  function Repeat(s: string, k: nat): (r: string)
    ensures |r| == k * |s|
  {
    if k == 0 then [] else Repeat(s, k - 1) + s
  }

  /** The least number of `step`-sized appends that bring a length `from` up to
      at least `target`. */
  function Copies(from: int, target: int, step: int): (k: nat)
    requires step > 0
    ensures from + k * step >= target
    ensures k > 0 ==> from + (k - 1) * step < target
  {
    if from >= target then 0
    else
      var d := target - from;
      var q := (d + step - 1) / step;
      assert q * step + (d + step - 1) % step == d + step - 1;
      q
  }

  lemma IntMulMonotone(a: int, b: int, c: nat)
    requires a <= b
    ensures a * c <= b * c
  {
  }

  /** Those two properties pin the count down. */
  lemma CopiesUnique(from: int, target: int, step: int, k: nat)
    requires step > 0
    requires from + k * step >= target
    requires k > 0 ==> from + (k - 1) * step < target
    ensures k == Copies(from, target, step)
  {
    var c := Copies(from, target, step);
    if k < c {
      IntMulMonotone(k, c - 1, step);
    } else if c < k {
      IntMulMonotone(c, k - 1, step);
    }
  }

  /** The `StringBuilder` loop: append `snippet` while the text is shorter than `target`. */
  method FillToTarget(header: string, snippet: string, target: int) returns (body: string)
    requires |snippet| > 0
    ensures body == header + Repeat(snippet, Copies(|header|, target, |snippet|))
    ensures |body| >= target
    ensures |header| < target ==> |body| < target + |snippet|
    ensures |header| >= target ==> body == header
  {
    body := header;
    ghost var k: nat := 0;
    while |body| < target
      invariant body == header + Repeat(snippet, k)
      invariant k > 0 ==> |header| + (k - 1) * |snippet| < target
      decreases target - |body|
    {
      body := body + snippet;
      k := k + 1;
    }
    CopiesUnique(|header|, target, |snippet|, k);
  }

  /** One line holding one block comment, which it closes before the line ends. */
  function CssHeader(id: Option<int32>, kb: int): (h: string)
    ensures OneLine(h)
    ensures |h| >= 5 && h[..2] == "/*" && h[|h| - 3..] == "*/\n"
  {
    "/* fake css file"
      + (if id.Some? then " id=" + IntToString(id.value as int) else "")
      + " size\U{2248}" + IntToString(kb) + "KB */\n"
  }

  /** One line holding one line comment, so no snippet code is commented out. */
  function JsHeader(id: Option<int32>, kb: int): (h: string)
    ensures OneLine(h)
    ensures |h| >= 3 && h[..2] == "//"
  {
    "// fake js file"
      + (if id.Some? then " id=" + IntToString(id.value as int) else "")
      + " size\U{2248}" + IntToString(kb) + "KB\n"
  }

  /** The optional id part of a header is at most 15 characters long. */
  lemma IdPartLength(id: Option<int32>)
    ensures |if id.Some? then " id=" + IntToString(id.value as int) else ""| <= 15
  {
    if id.Some? {
      assert Pow10(10) == 10_000_000_000;
      IntToStringLength(id.value as int, 10);
    }
  }

  /** Both headers are shorter than one KB for every size that fits the target. */
  lemma HeadersShort(id: Option<int32>, kb: int)
    requires 0 < kb && TargetFits(kb)
    ensures |CssHeader(id, kb)| < 1024
    ensures |JsHeader(id, kb)| < 1024
  {
    IdPartLength(id);
    assert Pow10(7) == 10_000_000;
    IntToStringLength(kb, 7);
  }

  method GetCss(id: Option<int32>, sizeKb: Option<int32>) returns (css: string)
    requires TargetFits(EffectiveKb(sizeKb, DefaultSizeKb))
    ensures var kb := EffectiveKb(sizeKb, DefaultSizeKb); var header := CssHeader(id, kb);
      css == header + Repeat(CssSnippet, Copies(|header|, kb * 1024, |CssSnippet|)) &&
      kb * 1024 <= |css| < kb * 1024 + |CssSnippet|
  {
    var kb := if sizeKb.None? || sizeKb.value <= 0 then DefaultSizeKb else sizeKb.value as int;
    var targetChars := kb * 1024;
    var header := "/* fake css file"
      + (if id.Some? then " id=" + IntToString(id.value as int) else "")
      + " size\U{2248}" + IntToString(kb) + "KB */\n";
    HeadersShort(id, kb);
    css := FillToTarget(header, CssSnippet, targetChars);
  }

  method GetJs(id: Option<int32>, sizeKb: Option<int32>) returns (js: string)
    requires TargetFits(EffectiveKb(sizeKb, DefaultJsSizeKb))
    ensures var kb := EffectiveKb(sizeKb, DefaultJsSizeKb); var header := JsHeader(id, kb);
      js == header + Repeat(JsSnippet, Copies(|header|, kb * 1024, |JsSnippet|)) &&
      kb * 1024 <= |js| < kb * 1024 + |JsSnippet|
  {
    var kb := if sizeKb.None? || sizeKb.value <= 0 then DefaultJsSizeKb else sizeKb.value as int;
    var targetChars := kb * 1024;
    var header := "// fake js file"
      + (if id.Some? then " id=" + IntToString(id.value as int) else "")
      + " size\U{2248}" + IntToString(kb) + "KB\n";
    HeadersShort(id, kb);
    js := FillToTarget(header, JsSnippet, targetChars);
  }

  /** The image body: `kb * 1024` bytes, byte `i` holding `(byte) (i % 256)`. */
  method GetImage(id: Option<int32>, sizeKb: Option<int32>) returns (bytes: array<int8>)
    requires TargetFits(EffectiveKb(sizeKb, DefaultImageSizeKb))
    ensures fresh(bytes)
    ensures bytes.Length == EffectiveKb(sizeKb, DefaultImageSizeKb) * 1024
    ensures forall i :: 0 <= i < bytes.Length ==> bytes[i] == NarrowToByte(i % 256)
  {
    var kb := if sizeKb.None? || sizeKb.value <= 0 then DefaultImageSizeKb else sizeKb.value as int;
    var numBytes := kb * 1024;
    bytes := new int8[numBytes];
    for i := 0 to numBytes
      invariant forall j :: 0 <= j < i ==> bytes[j] == NarrowToByte(j % 256)
    {
      bytes[i] := NarrowToByte(i % 256);
    }
  }

  /** The image pattern counts 0..127 and then wraps to -128..-1, every 256 bytes. */
  lemma ImagePatternSigned(i: nat)
    ensures i % 256 < 128 ==> NarrowToByte(i % 256) as int == i % 256
    ensures i % 256 >= 128 ==> NarrowToByte(i % 256) as int == i % 256 - 256
    ensures UnsignedByte(NarrowToByte(i % 256)) == i % 256
  {
    NarrowThenUnsigned(i % 256);
  }

  /** A value of the JSON body: a string, a number or null. */
  datatype JsonValue = JString(text: string) | JInt(number: int) | JNull

  /** An absent id is JSON null; a present one is a number in Java's `int` range. */
  function IdValue(id: Option<int32>): (v: JsonValue)
    ensures v.JNull? <==> id.None?
    ensures id.Some? ==> v == JInt(id.value as int)
    ensures v.JInt? ==> v.number == id.value as int && -0x8000_0000 <= v.number < 0x8000_0000
  {
    match id
    case None => JNull
    case Some(v) => JInt(v as int)
  }

  /** The body both API endpoints build, with `type` set to `kind`. */
  method ApiBody(kind: string, id: Option<int32>, timestamp: string) returns (body: map<string, JsonValue>)
    ensures body.Keys == {"type", "id", "timestamp"}
    ensures body["type"] == JString(kind)
    ensures body["id"] == IdValue(id)
    ensures body["timestamp"] == JString(timestamp)
  {
    body := map[];
    body := body["type" := JString(kind)];
    body := body["id" := IdValue(id)];
    body := body["timestamp" := JString(timestamp)];
  }

  method GetFastApi(id: Option<int32>, timestamp: string) returns (body: map<string, JsonValue>)
    ensures body.Keys == {"type", "id", "timestamp"}
    ensures body["type"] == JString("fast") && body["id"] == IdValue(id)
    ensures body["timestamp"] == JString(timestamp)
  {
    body := ApiBody("fast", id, timestamp);
  }

  method GetSlowApi(id: Option<int32>, timestamp: string) returns (body: map<string, JsonValue>)
    ensures body.Keys == {"type", "id", "timestamp"}
    ensures body["type"] == JString("slow") && body["id"] == IdValue(id)
    ensures body["timestamp"] == JString(timestamp)
  {
    body := ApiBody("slow", id, timestamp);
  }
}

=== FILE: rounding.dfy ===
/**
  JavaScript's `Math.floor` and `Math.round` on exact real numbers.
  `Math.round(x)` is the integer nearest to `x`, with halves going up
  (towards +infinity), i.e. `floor(x + 1/2)`.
 */
module Rounding {

  function Floor(x: real): (r: int)
    ensures r as real <= x < r as real + 1.0
  {
    x.Floor
  }

  function Round(x: real): (r: int)
    ensures x - 0.5 < r as real <= x + 0.5
  {
    Floor(x + 0.5)
  }

  lemma RoundMonotone(x: real, y: real)
    requires x <= y
    ensures Round(x) <= Round(y)
  {
  }

  lemma RoundOfInteger(k: int)
    ensures Round(k as real) == k
  {
  }

  /** A value between two integers rounds to an integer between them. */
  lemma RoundBetween(x: real, lo: int, hi: int)
    requires lo as real <= x <= hi as real
    ensures lo <= Round(x) <= hi
  {
  }
}

=== FILE: text.dfy ===
/**
  Decimal rendering of integers and ASCII case mapping: the parts of
  JavaScript template literals / Java string concatenation and of
  `toUpperCase` that the generator and the resource bodies rely on.
 */
module Text {

  predicate IsDigit(c: char) {
    '0' <= c <= '9'
  }

  predicate AllDigits(s: string) {
    forall k :: 0 <= k < |s| ==> IsDigit(s[k])
  }

  function DigitChar(d: nat): (c: char)
    requires d < 10
    ensures IsDigit(c)
  {
    ('0' as int + d) as char
  }

  function DigitValue(c: char): (d: nat)
    requires IsDigit(c)
    ensures d < 10
  {
    c as int - '0' as int
  }

  function Pow10(k: nat): (p: nat)
    ensures p >= 1
  {
    if k == 0 then 1 else 10 * Pow10(k - 1)
  }

  /** Decimal digits of `n`, most significant first, without leading zeros. */
  function NatToString(n: nat): (s: string)
    ensures |s| > 0 && AllDigits(s)
    ensures s[0] == '0' ==> n == 0
  {
    if n < 10 then [DigitChar(n)] else NatToString(n / 10) + [DigitChar(n % 10)]
  }

  /** A non-empty line: its one line break is its last character. */
  predicate OneLine(s: string) {
    |s| > 0 && s[|s| - 1] == '\n' && forall k :: 0 <= k < |s| - 1 ==> s[k] != '\n'
  }

  /** Reads a string of decimal digits back as a number. */
  function ParseNat(s: string): nat
    requires AllDigits(s)
  {
    if s == [] then 0 else 10 * ParseNat(s[..|s| - 1]) + DigitValue(s[|s| - 1])
  }

  lemma {:induction false} ParseNatToString(n: nat)
    ensures ParseNat(NatToString(n)) == n
  {
    var s := NatToString(n);
    if n >= 10 {
      ParseNatToString(n / 10);
      assert s[..|s| - 1] == NatToString(n / 10);
    }
  }

  /** Different numbers render as different strings. */
  lemma NatToStringInjective(a: nat, b: nat)
    requires NatToString(a) == NatToString(b)
    ensures a == b
  {
    ParseNatToString(a);
    ParseNatToString(b);
  }

  lemma {:induction false} NatToStringLength(n: nat, k: nat)
    requires 1 <= k && n < Pow10(k)
    ensures |NatToString(n)| <= k
  {
    if n >= 10 {
      assert k >= 2;
      NatToStringLength(n / 10, k - 1);
    }
  }

  /** Java's `Integer.toString` / JavaScript's `String(n)` on an integer. */
  function IntToString(i: int): (s: string)
    ensures |s| > 0
    ensures s[0] == '-' <==> i < 0
    ensures forall k :: 0 <= k < |s| ==> s[k] == '-' || IsDigit(s[k])
  {
    if i < 0 then "-" + NatToString(-i) else NatToString(i)
  }

  function ParseInt(s: string): int
    requires |s| > 0
    requires s[0] == '-' ==> AllDigits(s[1..])
    requires s[0] != '-' ==> AllDigits(s)
  {
    if s[0] == '-' then 0 - ParseNat(s[1..]) else ParseNat(s)
  }

  lemma IntToStringRoundTrip(i: int)
    ensures var s := IntToString(i);
      (s[0] == '-' ==> AllDigits(s[1..])) && (s[0] != '-' ==> AllDigits(s)) &&
      ParseInt(s) == i
  {
    var s := IntToString(i);
    if i < 0 {
      assert s[1..] == NatToString(-i);
      ParseNatToString(-i);
    } else {
      ParseNatToString(i);
    }
  }

  /** An integer whose absolute value is below 10^k renders in at most k + 1 characters. */
  lemma IntToStringLength(i: int, k: nat)
    requires 1 <= k && 0 - Pow10(k) < i < Pow10(k)
    ensures |IntToString(i)| <= k + 1
  {
    if i < 0 { NatToStringLength(-i, k); } else { NatToStringLength(i, k); }
  }

  /** ASCII upper-casing; every other character is left as it is. */
  predicate IsLower(c: char) {
    'a' <= c <= 'z'
  }

  function UpperChar(c: char): (u: char)
    ensures !IsLower(u)
    ensures IsLower(c) ==> u as int == c as int - 32
    ensures !IsLower(c) ==> u == c
  {
    if IsLower(c) then (c as int - 32) as char else c
  }

  /** Every lower-case letter becomes upper-case; every other character stays. */
  function ToUpper(s: string): (u: string)
    ensures |u| == |s|
    ensures forall k :: 0 <= k < |s| ==> !IsLower(u[k])
    ensures forall k :: 0 <= k < |s| && !IsLower(s[k]) ==> u[k] == s[k]
    ensures forall k :: 0 <= k < |s| && IsLower(s[k]) ==> u[k] as int == s[k] as int - 32
  {
    seq(|s|, k requires 0 <= k < |s| => UpperChar(s[k]))
  }

  /** `s.charAt(0).toUpperCase() + s.slice(1)`. */
  function Capitalize(s: string): (r: string)
    ensures |r| == |s|
    ensures |s| > 0 ==> !IsLower(r[0]) && r[1..] == s[1..]
    ensures |s| > 0 && !IsLower(s[0]) ==> r == s
    ensures |s| > 0 && IsLower(s[0]) ==> r[0] as int == s[0] as int - 32
  {
    if s == [] then s else [UpperChar(s[0])] + s[1..]
  }
}

=== FILE: waterfall_utils.dfy ===
/**
  The synthetic waterfall generator and the per-phase statistics over a
  generated batch. Every `Math.random()` draw of the generator is an
  explicit parameter: one `Draw` per record, holding the draws for the
  wait phase, the response phase and the size, in that order.
 */
module WaterfallUtils {
  import opened NetworkTypes
  import opened Rounding
  import opened Text

  const TypeNames: seq<ResourceType> := [Html, Css, Js, Image, Api]

  function TypeKey(t: ResourceType): string {
    match t
    case Html => "html"
    case Css => "css"
    case Js => "js"
    case Image => "image"
    case Api => "api"
  }

  function TypeIcon(t: ResourceType): string {
    match t
    case Html => "\U{1F4C4}"
    case Css => "\U{1F3A8}"
    case Js => "\U{26A1}"
    case Image => "\U{1F5BC}\U{FE0F}"
    case Api => "\U{1F517}"
  }

  function TypeColor(t: ResourceType): string {
    match t
    case Html => "#3b82f6"
    case Css => "#06b6d4"
    case Js => "#10b981"
    case Image => "#f59e0b"
    case Api => "#ef4444"
  }

  // ---------------------------------------------------------------------
  // Per-protocol constants and the timing formulas

  function NumRequests(p: Protocol): nat {
    if p == Http2 then 8 else 12
  }

  function DnsBase(p: Protocol): int {
    if p == Http2 then 25 else 10
  }

  function TcpBase(p: Protocol): int {
    if p == Http2 then 50 else 15
  }

  function SslBase(p: Protocol): int {
    if p == Http2 then 35 else 20
  }

  /** No added latency leaves a phase as it is; added latency only stretches it. */
  function LatencyMultiplier(c: NetworkCondition): (m: real)
    ensures c.latency >= 0.0 ==> m >= 1.0
    ensures m == 1.0 <==> c.latency == 0.0
  {
    1.0 + c.latency / 100.0
  }

  /** No packet loss leaves a handshake as it is; loss only stretches it. */
  function PacketLossImpact(c: NetworkCondition): (l: real)
    ensures c.packetLoss >= 0.0 ==> l >= 1.0
    ensures l == 1.0 <==> c.packetLoss == 0.0
  {
    1.0 + c.packetLoss / 50.0
  }

  /** A handshake phase: its base scaled by latency and by packet loss. */
  function HandshakeTime(base: int, c: NetworkCondition): (t: int)
    ensures c.latency == 0.0 && c.packetLoss == 0.0 ==> t == base
  {
    Round(base as real * LatencyMultiplier(c) * PacketLossImpact(c))
  }

  function DnsTime(p: Protocol, c: NetworkCondition): (t: int)
    ensures c.latency == 0.0 && c.packetLoss == 0.0 ==> t == (if p == Http2 then 25 else 10)
  {
    HandshakeTime(DnsBase(p), c)
  }

  function TcpTime(p: Protocol, c: NetworkCondition): (t: int)
    ensures c.latency == 0.0 && c.packetLoss == 0.0 ==> t == (if p == Http2 then 50 else 15)
  {
    HandshakeTime(TcpBase(p), c)
  }

  function SslTime(p: Protocol, c: NetworkCondition): (t: int)
    ensures c.latency == 0.0 && c.packetLoss == 0.0 ==> t == (if p == Http2 then 35 else 20)
  {
    HandshakeTime(SslBase(p), c)
  }

  function RequestTime(c: NetworkCondition): (t: int)
    ensures c.latency == 0.0 ==> t == 20
  {
    Round(20.0 * LatencyMultiplier(c))
  }

  /** A base plus a draw's share of a spread, scaled by `m` and rounded. */
  function Jittered(base: real, spread: real, r: real, m: real): int {
    Round((base + r * spread) * m)
  }

  function WaitTime(c: NetworkCondition, r: real): (t: int)
    ensures c.latency == 0.0 && 0.0 <= r < 1.0 ==> 100 <= t <= 150
  {
    Jittered(100.0, 50.0, r, LatencyMultiplier(c))
  }

  function ResponseTime(c: NetworkCondition, r: real): (t: int)
    requires c.bandwidth != 0.0
    ensures c.bandwidth == 10.0 && 0.0 <= r < 1.0 ==> 50 <= t <= 80
  {
    Round((50.0 + r * 30.0) / (c.bandwidth / 10.0))
  }

  /** 50 KB plus one KB for every whole 1/500 of the draw. */
  function SizeKb(r: real): (kb: int)
    ensures (kb - 50) as real <= r * 500.0 < (kb - 49) as real
  {
    Floor(r * 500.0) + 50
  }

  /** The label of the record at index `i`: icon, upper-cased type, 1-based index. */
  function RequestName(t: ResourceType, i: nat): (n: string)
  {
    TypeIcon(t) + " " + ToUpper(TypeKey(t)) + " " + NatToString(i + 1)
  }

  /** A label starts with the type's icon and ends with the 1-based index. */
  lemma RequestNameParts(t: ResourceType, i: nat)
    ensures var n := RequestName(t, i);
      |TypeIcon(t)| + |NatToString(i + 1)| < |n| &&
      n[..|TypeIcon(t)|] == TypeIcon(t) &&
      n[|n| - |NatToString(i + 1)|..] == NatToString(i + 1)
  {
  }

  /** The three `Math.random()` draws one record consumes. */
  datatype Draw = Draw(wait: real, response: real, size: real)

  predicate ValidDraw(d: Draw) {
    0.0 <= d.wait < 1.0 && 0.0 <= d.response < 1.0 && 0.0 <= d.size < 1.0
  }

  /** The record the generator builds at index `i` from the draws `d`. */
  function RecordAt(p: Protocol, c: NetworkCondition, i: nat, d: Draw): WaterfallRequest
    requires c.bandwidth != 0.0
  {
    var t := TypeNames[i % 5];
    WaterfallRequest(
      i + 1, RequestName(t, i), t,
      DnsTime(p, c), TcpTime(p, c), SslTime(p, c), RequestTime(c),
      WaitTime(c, d.wait), ResponseTime(c, d.response),
      TypeColor(t), SizeKb(d.size))
  }

  /** The whole batch the generator builds from one draw per record. */
  function Batch(p: Protocol, c: NetworkCondition, draws: seq<Draw>): (b: seq<WaterfallRequest>)
    requires c.bandwidth != 0.0
    ensures |b| == |draws|
    ensures forall i :: 0 <= i < |draws| ==> b[i] == RecordAt(p, c, i, draws[i])
  {
    if |draws| == 0 then []
    else Batch(p, c, draws[..|draws| - 1]) + [RecordAt(p, c, |draws| - 1, draws[|draws| - 1])]
  }

  // ---------------------------------------------------------------------
  // The generator

  /** The batch for the first `i + 1` draws extends the batch for the first `i`
      by the record at index `i`. */
  lemma BatchSnoc(p: Protocol, c: NetworkCondition, draws: seq<Draw>, i: nat)
    requires c.bandwidth != 0.0 && i < |draws|
    ensures Batch(p, c, draws[..i + 1]) == Batch(p, c, draws[..i]) + [RecordAt(p, c, i, draws[i])]
  {
    assert draws[..i + 1][..i] == draws[..i];
  }

  /** The record the loop body assembles, spelled with the multipliers computed
      once before the loop and the protocol's bases, is the record at index `i`. */
  lemma RecordStep(p: Protocol, c: NetworkCondition, draws: seq<Draw>, i: nat, t: ResourceType,
                   lm: real, pli: real, dnsBase: int, tcpBase: int, sslBase: int)
    requires c.bandwidth != 0.0 && i < |draws| && t == TypeNames[i % 5]
    requires lm == 1.0 + c.latency / 100.0 && pli == 1.0 + c.packetLoss / 50.0
    requires dnsBase == DnsBase(p) && tcpBase == TcpBase(p) && sslBase == SslBase(p)
    ensures WaterfallRequest(
        i + 1, TypeIcon(t) + " " + ToUpper(TypeKey(t)) + " " + NatToString(i + 1), t,
        Round(dnsBase as real * lm * pli), Round(tcpBase as real * lm * pli),
        Round(sslBase as real * lm * pli), Round(20.0 * lm), Round((100.0 + draws[i].wait * 50.0) * lm),
        Round((50.0 + draws[i].response * 30.0) / (c.bandwidth / 10.0)),
        TypeColor(t), Floor(draws[i].size * 500.0) + 50)
      == RecordAt(p, c, i, draws[i])
  {
    HandshakeStep(dnsBase, c, lm, pli);
    HandshakeStep(tcpBase, c, lm, pli);
    HandshakeStep(sslBase, c, lm, pli);
    LatencyStep(c, lm, draws[i].wait);
    DrawStep(c, draws[i]);
    var r := RecordAt(p, c, i, draws[i]);
    assert r.resourceType == t && r.name == RequestName(t, i);
  }

  /** The response and size phases as the loop body spells them. */
  lemma DrawStep(c: NetworkCondition, d: Draw)
    requires c.bandwidth != 0.0
    ensures Round((50.0 + d.response * 30.0) / (c.bandwidth / 10.0)) == ResponseTime(c, d.response)
    ensures Floor(d.size * 500.0) + 50 == SizeKb(d.size)
  {
  }

  /** The request and wait phases spelled with the loop's precomputed multiplier. */
  lemma LatencyStep(c: NetworkCondition, lm: real, r: real)
    requires lm == 1.0 + c.latency / 100.0
    ensures Round(20.0 * lm) == RequestTime(c)
    ensures Round((100.0 + r * 50.0) * lm) == WaitTime(c, r)
  {
  }

  /** A handshake phase spelled with the loop's precomputed multipliers. */
  lemma HandshakeStep(base: int, c: NetworkCondition, lm: real, pli: real)
    requires lm == 1.0 + c.latency / 100.0 && pli == 1.0 + c.packetLoss / 50.0
    ensures Round(base as real * lm * pli) == HandshakeTime(base, c)
  {
    ProductCongruence(base as real, lm, pli, base as real, LatencyMultiplier(c), PacketLossImpact(c));
  }

  /** Equal factors give equal products, however each factor is spelled. */
  lemma ProductCongruence(a1: real, b1: real, c1: real, a2: real, b2: real, c2: real)
    requires a1 == a2 && b1 == b2 && c1 == c2
    ensures a1 * b1 * c1 == a2 * b2 * c2
  {
  }

  method GenerateWaterfallData(protocol: Protocol, networkCondition: NetworkCondition, draws: seq<Draw>)
    returns (data: seq<WaterfallRequest>)
    requires networkCondition.bandwidth != 0.0
    requires |draws| == NumRequests(protocol)
    ensures |data| == (if protocol == Http2 then 8 else 12)
    ensures forall i :: 0 <= i < |data| ==> data[i].id == i + 1 && data[i].resourceType == TypeNames[i % 5]
    ensures forall i :: 0 <= i < |data| ==> data[i] == RecordAt(protocol, networkCondition, i, draws[i])
  {
    var latencyMultiplier := 1.0 + networkCondition.latency / 100.0;
    var packetLossImpact := 1.0 + networkCondition.packetLoss / 50.0;
    var numRequests := if protocol == Http2 then 8 else 12;
    data := [];
    for i := 0 to numRequests
      invariant data == Batch(protocol, networkCondition, draws[..i])
    {
      var t := TypeNames[i % |TypeNames|];
      var dnsBase := if protocol == Http2 then 25 else 10;
      var tcpBase := if protocol == Http2 then 50 else 15;
      var sslBase := if protocol == Http2 then 35 else 20;
      var dns := Round(dnsBase as real * latencyMultiplier * packetLossImpact);
      var tcp := Round(tcpBase as real * latencyMultiplier * packetLossImpact);
      var ssl := Round(sslBase as real * latencyMultiplier * packetLossImpact);
      var request := Round(20.0 * latencyMultiplier);
      var wait := Round((100.0 + draws[i].wait * 50.0) * latencyMultiplier);
      var response := Round((50.0 + draws[i].response * 30.0) / (networkCondition.bandwidth / 10.0));
      var size := Floor(draws[i].size * 500.0) + 50;
      var name := TypeIcon(t) + " " + ToUpper(TypeKey(t)) + " " + NatToString(i + 1);
      var rec := WaterfallRequest(i + 1, name, t, dns, tcp, ssl, request, wait, response, TypeColor(t), size);
      RecordStep(protocol, networkCondition, draws, i, t, latencyMultiplier, packetLossImpact, dnsBase, tcpBase, sslBase);
      BatchSnoc(protocol, networkCondition, draws, i);
      assert data + [rec] == Batch(protocol, networkCondition, draws[..i + 1]);
      data := data + [rec];
    }
    assert draws[..numRequests] == draws;
  }

  /** A list holding, at each index, the record built there from that index's
      draw is the batch. */
  lemma RecordsAreBatch(p: Protocol, c: NetworkCondition, draws: seq<Draw>, data: seq<WaterfallRequest>)
    requires c.bandwidth != 0.0 && |data| == |draws|
    requires forall i :: 0 <= i < |data| ==> data[i] == RecordAt(p, c, i, draws[i])
    ensures data == Batch(p, c, draws)
  {
  }

  // ---------------------------------------------------------------------
  // Properties of the generated records

  lemma MulMonotone(a: real, b: real, k: real)
    requires a <= b && k >= 0.0
    ensures a * k <= b * k
  {
  }

  lemma ScaledAtLeast(base: real, m: real, l: real)
    requires base >= 0.0 && m >= 1.0 && l >= 1.0
    ensures base <= base * m * l
  {
    MulMonotone(1.0, m, l);
    MulMonotone(1.0, m * l, base);
    assert base * m * l == (m * l) * base;
  }

  lemma ScaledMonotone(base: real, m1: real, m2: real, l: real)
    requires base >= 0.0 && m1 <= m2 && l >= 0.0
    ensures base * m1 * l <= base * m2 * l
  {
    MulMonotone(m1, m2, base * l);
    assert base * m1 * l == m1 * (base * l);
    assert base * m2 * l == m2 * (base * l);
  }

  lemma ScaledRoundAtLeast(base: nat, m: real, l: real)
    requires m >= 1.0 && l >= 1.0
    ensures Round(base as real * m * l) >= base
  {
    ScaledAtLeast(base as real, m, l);
    RoundMonotone(base as real, base as real * m * l);
    RoundOfInteger(base);
  }

  lemma ScaledRoundMonotone(base: nat, m1: real, m2: real, l: real)
    requires m1 <= m2 && l >= 0.0
    ensures Round(base as real * m1 * l) <= Round(base as real * m2 * l)
  {
    ScaledMonotone(base as real, m1, m2, l);
    RoundMonotone(base as real * m1 * l, base as real * m2 * l);
  }

  /** With non-negative latency and loss, each handshake phase is at least its
      protocol base and the request phase at least 20. */
  lemma HandshakeBounds(p: Protocol, c: NetworkCondition)
    requires c.latency >= 0.0 && c.packetLoss >= 0.0
    ensures DnsTime(p, c) >= DnsBase(p)
    ensures TcpTime(p, c) >= TcpBase(p)
    ensures SslTime(p, c) >= SslBase(p)
    ensures RequestTime(c) >= 20
  {
    var m, l := LatencyMultiplier(c), PacketLossImpact(c);
    ScaledRoundAtLeast(DnsBase(p), m, l);
    ScaledRoundAtLeast(TcpBase(p), m, l);
    ScaledRoundAtLeast(SslBase(p), m, l);
    ScaledRoundAtLeast(20, m, 1.0);
    assert 20.0 * m * 1.0 == 20.0 * m;
  }

  /** A larger draw never lowers a jittered value with a non-negative spread and scale. */
  lemma JitteredDrawMonotone(base: real, spread: real, r1: real, r2: real, m: real)
    requires spread >= 0.0 && r1 <= r2 && m >= 0.0
    ensures Jittered(base, spread, r1, m) <= Jittered(base, spread, r2, m)
  {
    MulMonotone(r1, r2, spread);
    var x1, x2 := base + r1 * spread, base + r2 * spread;
    MulMonotone(x1, x2, m);
    RoundMonotone(x1 * m, x2 * m);
  }

  /** A draw in [0, 1] puts a jittered value between its values for the draws 0 and 1. */
  lemma JitteredBetween(base: real, spread: real, r: real, m: real)
    requires spread >= 0.0 && 0.0 <= r <= 1.0 && m >= 0.0
    ensures Jittered(base, spread, 0.0, m) <= Jittered(base, spread, r, m) <= Jittered(base, spread, 1.0, m)
  {
    JitteredDrawMonotone(base, spread, 0.0, r, m);
    JitteredDrawMonotone(base, spread, r, 1.0, m);
  }

  /** With a whole base `k` and a scale of at least one, the smallest jittered
      value is at least `k`. */
  lemma JitteredAtLeast(base: real, spread: real, m: real, k: int)
    requires base == k as real && k >= 0 && m >= 1.0
    ensures Jittered(base, spread, 0.0, m) >= k
  {
    var lo := base + 0.0 * spread;
    assert lo == base;
    MulMonotone(1.0, m, lo);
    RoundMonotone(lo, lo * m);
    RoundOfInteger(k);
  }

  /** A larger scale never lowers a jittered value with a non-negative base and draw. */
  lemma JitteredScaleMonotone(base: real, spread: real, r: real, m1: real, m2: real)
    requires base >= 0.0 && spread >= 0.0 && r >= 0.0 && m1 <= m2
    ensures Jittered(base, spread, r, m1) <= Jittered(base, spread, r, m2)
  {
    var x := base + r * spread;
    MulMonotone(0.0, r, spread);
    MulMonotone(m1, m2, x);
    assert x * m1 == m1 * x && x * m2 == m2 * x;
    RoundMonotone(x * m1, x * m2);
  }

  /** The wait phase lies between its values for the smallest and the largest
      draw, which are round(100·m) and round(150·m) for the latency multiplier
      m, and it is at least 100. */
  lemma WaitBounds(c: NetworkCondition, r: real)
    requires c.latency >= 0.0 && 0.0 <= r < 1.0
    ensures WaitTime(c, 0.0) <= WaitTime(c, r) <= WaitTime(c, 1.0)
    ensures WaitTime(c, 0.0) == Round(100.0 * LatencyMultiplier(c))
    ensures WaitTime(c, 1.0) == Round(150.0 * LatencyMultiplier(c))
    ensures WaitTime(c, r) >= 100
  {
    JitteredBetween(100.0, 50.0, r, LatencyMultiplier(c));
    JitteredAtLeast(100.0, 50.0, LatencyMultiplier(c), 100);
  }

  /** The response phase scales the draw by ten over the bandwidth. */
  lemma ResponseFormula(c: NetworkCondition, r: real)
    requires c.bandwidth > 0.0 && 0.0 <= r < 1.0
    ensures ResponseTime(c, r) == Round((50.0 + r * 30.0) * 10.0 / c.bandwidth)
    ensures ResponseTime(c, r) >= 0
  {
    var num := 50.0 + r * 30.0;
    assert num / (c.bandwidth / 10.0) == num * 10.0 / c.bandwidth;
    RoundBetween(num * 10.0 / c.bandwidth, 0, (num * 10.0 / c.bandwidth).Floor + 1);
  }

  /** A size draw in [0, 1) gives a whole size in [50, 549]. */
  lemma SizeBounds(r: real)
    requires 0.0 <= r < 1.0
    ensures 50 <= SizeKb(r) <= 549
  {
    assert 0.0 <= r * 500.0 < 500.0;
  }

  /** With non-negative latency and loss, positive bandwidth and draws in [0, 1),
      every phase of every record is a non-negative whole number, and the size
      lies in [50, 549]. */
  lemma RecordBounds(p: Protocol, c: NetworkCondition, i: nat, d: Draw)
    requires c.latency >= 0.0 && c.packetLoss >= 0.0 && c.bandwidth > 0.0
    requires ValidDraw(d)
    ensures var r := RecordAt(p, c, i, d);
      r.dns >= 0 && r.tcp >= 0 && r.ssl >= 0 && r.request >= 0 && r.wait >= 0 && r.response >= 0 &&
      50 <= r.size <= 549
  {
    HandshakeBounds(p, c);
    WaitBounds(c, d.wait);
    ResponseFormula(c, d.response);
    SizeBounds(d.size);
  }

  /** A base divisible by 5, stretched by at most 4 for latency and at most 1.2
      for loss, rounds to at most 4.8 times the base. */
  lemma ScaledRoundAtMost(base: nat, m: real, l: real)
    requires base % 5 == 0 && 0.0 <= m <= 4.0 && 0.0 <= l <= 1.2
    ensures 5 * Round(base as real * m * l) <= 24 * base
  {
    MulMonotone(m, 4.0, l);
    MulMonotone(l, 1.2, 4.0);
    assert m * l <= 4.0 * l == l * 4.0 <= 4.8;
    MulMonotone(m * l, 4.8, base as real);
    assert base as real * m * l == (m * l) * base as real;
    var k := 24 * base / 5;
    assert 4.8 * base as real == k as real;
    RoundMonotone(base as real * m * l, k as real);
    RoundOfInteger(k);
  }

  /** A numerator of at most 800 over a bandwidth of at least 0.5 is at most 1600. */
  lemma QuotientAtMost(x: real, b: real)
    requires 0.0 <= x <= 800.0 && b >= 0.5
    ensures x / b <= 1600.0
  {
    var q := x / b;
    assert q * b == x;
    MulMonotone(0.5, b, q);
  }

  /** With latency in [0, 300] and loss in [0, 10], a handshake phase whose base
      is divisible by 5 is at most 4.8 times its base. */
  lemma HandshakeAtMost(base: nat, c: NetworkCondition)
    requires 0.0 <= c.latency <= 300.0 && 0.0 <= c.packetLoss <= 10.0 && base % 5 == 0
    ensures 5 * HandshakeTime(base, c) <= 24 * base
  {
    var m, l := LatencyMultiplier(c), PacketLossImpact(c);
    ScaledRoundAtMost(base, m, l);
    assert HandshakeTime(base, c) == Round(base as real * m * l);
  }

  /** Within the sliders' ranges, a handshake phase is at most 4.8 times its
      base and the request phase at most 80. */
  lemma SliderHandshakeAtMost(p: Protocol, c: NetworkCondition)
    requires InSliderRange(c)
    ensures 5 * DnsTime(p, c) <= 24 * DnsBase(p)
    ensures 5 * TcpTime(p, c) <= 24 * TcpBase(p)
    ensures 5 * SslTime(p, c) <= 24 * SslBase(p)
    ensures RequestTime(c) <= 80
  {
    HandshakeAtMost(DnsBase(p), c);
    HandshakeAtMost(TcpBase(p), c);
    HandshakeAtMost(SslBase(p), c);
    RoundMonotone(20.0 * LatencyMultiplier(c), 80.0);
    RoundOfInteger(80);
  }

  /** Within the sliders' ranges, the wait phase is at most round(150 · 4) = 600. */
  lemma SliderWaitAtMost(c: NetworkCondition, r: real)
    requires InSliderRange(c) && 0.0 <= r < 1.0
    ensures WaitTime(c, r) <= 600
  {
    JitteredScaleMonotone(100.0, 50.0, r, LatencyMultiplier(c), 4.0);
    JitteredDrawMonotone(100.0, 50.0, r, 1.0, 4.0);
    assert (100.0 + 1.0 * 50.0) * 4.0 == 600.0;
    RoundOfInteger(600);
  }

  /** Within the sliders' ranges, the response phase is at most 80 / 0.05 = 1600. */
  lemma SliderResponseAtMost(c: NetworkCondition, r: real)
    requires InSliderRange(c) && 0.0 <= r < 1.0
    ensures ResponseTime(c, r) <= 1600
  {
    ResponseFormula(c, r);
    var num := 50.0 + r * 30.0;
    QuotientAtMost(num * 10.0, c.bandwidth);
    RoundMonotone(num * 10.0 / c.bandwidth, 1600.0);
    RoundOfInteger(1600);
  }

  /** Within the sliders' ranges, every phase of every record has a ceiling:
      the handshakes 4.8 times their base, request 80, wait 600, response 1600. */
  lemma SliderRecordBounds(p: Protocol, c: NetworkCondition, i: nat, d: Draw)
    requires InSliderRange(c) && ValidDraw(d)
    ensures var r := RecordAt(p, c, i, d);
      5 * r.dns <= 24 * DnsBase(p) && 5 * r.tcp <= 24 * TcpBase(p) && 5 * r.ssl <= 24 * SslBase(p) &&
      r.request <= 80 && r.wait <= 600 && r.response <= 1600
  {
    SliderHandshakeAtMost(p, c);
    SliderWaitAtMost(c, d.wait);
    SliderResponseAtMost(c, d.response);
  }

  lemma HandshakeLatencyMonotone(base: nat, c1: NetworkCondition, c2: NetworkCondition)
    requires c1.latency <= c2.latency
    requires c1.packetLoss == c2.packetLoss >= 0.0
    ensures HandshakeTime(base, c1) <= HandshakeTime(base, c2)
  {
    var l := PacketLossImpact(c1);
    assert l == PacketLossImpact(c2);
    var m1, m2 := LatencyMultiplier(c1), LatencyMultiplier(c2);
    ScaledRoundMonotone(base, m1, m2, l);
    assert HandshakeTime(base, c1) == Round(base as real * m1 * l);
    assert HandshakeTime(base, c2) == Round(base as real * m2 * l);
  }

  lemma RequestLatencyMonotone(c1: NetworkCondition, c2: NetworkCondition)
    requires c1.latency <= c2.latency
    ensures RequestTime(c1) <= RequestTime(c2)
  {
    MulMonotone(LatencyMultiplier(c1), LatencyMultiplier(c2), 20.0);
    RoundMonotone(20.0 * LatencyMultiplier(c1), 20.0 * LatencyMultiplier(c2));
  }

  lemma WaitLatencyMonotone(c1: NetworkCondition, c2: NetworkCondition, r: real)
    requires c1.latency <= c2.latency && 0.0 <= r
    ensures WaitTime(c1, r) <= WaitTime(c2, r)
  {
    JitteredScaleMonotone(100.0, 50.0, r, LatencyMultiplier(c1), LatencyMultiplier(c2));
  }

  /** More latency (all else equal) never shortens the dns, tcp, ssl, request or
      wait phase. */
  lemma LatencyMonotone(p: Protocol, c1: NetworkCondition, c2: NetworkCondition, r: real)
    requires c1.latency <= c2.latency
    requires c1.packetLoss == c2.packetLoss >= 0.0
    requires 0.0 <= r
    ensures DnsTime(p, c1) <= DnsTime(p, c2)
    ensures TcpTime(p, c1) <= TcpTime(p, c2)
    ensures SslTime(p, c1) <= SslTime(p, c2)
    ensures RequestTime(c1) <= RequestTime(c2)
    ensures WaitTime(c1, r) <= WaitTime(c2, r)
  {
    HandshakeLatencyMonotone(DnsBase(p), c1, c2);
    HandshakeLatencyMonotone(TcpBase(p), c1, c2);
    HandshakeLatencyMonotone(SslBase(p), c1, c2);
    RequestLatencyMonotone(c1, c2);
    WaitLatencyMonotone(c1, c2, r);
  }

  /** More bandwidth (same draw) never lengthens the response phase. */
  lemma BandwidthMonotone(c1: NetworkCondition, c2: NetworkCondition, r: real)
    requires 0.0 < c1.bandwidth <= c2.bandwidth
    requires 0.0 <= r
    ensures ResponseTime(c2, r) <= ResponseTime(c1, r)
  {
    var num := 50.0 + r * 30.0;
    var b1, b2 := c1.bandwidth / 10.0, c2.bandwidth / 10.0;
    assert num / b2 <= num / b1 by {
      assert num / b2 * b2 == num;
      assert num / b1 * b1 == num;
      MulMonotone(b1, b2, num / b2);
    }
    RoundMonotone(num / b2, num / b1);
  }

  /** The 5G preset over HTTP/2: latency multiplier 1.2, no loss penalty. */
  lemma FiveGHttp2Example()
    ensures DnsTime(Http2, FiveG) == 30
    ensures TcpTime(Http2, FiveG) == 60
    ensures SslTime(Http2, FiveG) == 42
    ensures RequestTime(FiveG) == 24
  {
    assert LatencyMultiplier(FiveG) == 1.2 && PacketLossImpact(FiveG) == 1.0;
    RoundOfInteger(30);
    RoundOfInteger(60);
    RoundOfInteger(42);
    RoundOfInteger(24);
  }

  /** The Slow 3G preset over HTTP/3, where the loss penalty forces real rounding:
      dns 21.2 -> 21, tcp 31.8 -> 32, ssl 42.4 -> 42. */
  lemma Slow3GHttp3Example()
    ensures DnsTime(Http3, Slow3G) == 21
    ensures TcpTime(Http3, Slow3G) == 32
    ensures SslTime(Http3, Slow3G) == 42
    ensures RequestTime(Slow3G) == 40
  {
    assert LatencyMultiplier(Slow3G) == 2.0 && PacketLossImpact(Slow3G) == 1.06;
    assert DnsBase(Http3) as real * 2.0 * 1.06 == 21.2;
    assert TcpBase(Http3) as real * 2.0 * 1.06 == 31.8;
    assert SslBase(Http3) as real * 2.0 * 1.06 == 42.4;
    RoundOfInteger(40);
  }

  /** Two runs with the same protocol and condition differ at most in the random
      fields: wait, response and size. */
  lemma RedrawChangesOnlyRandomFields(p: Protocol, c: NetworkCondition, d1: seq<Draw>, d2: seq<Draw>)
    requires c.bandwidth != 0.0
    requires |d1| == |d2| == NumRequests(p)
    ensures var b1, b2 := Batch(p, c, d1), Batch(p, c, d2);
      |b1| == |b2| &&
      forall i :: 0 <= i < |b1| ==>
        b1[i].(wait := 0, response := 0, size := 0) == b2[i].(wait := 0, response := 0, size := 0)
  {
  }

  /** The dns, tcp, ssl and request phases are the same in every record of a batch. */
  lemma SharedPhases(p: Protocol, c: NetworkCondition, draws: seq<Draw>, i: nat, j: nat)
    requires c.bandwidth != 0.0
    requires i < |draws| && j < |draws|
    ensures var b := Batch(p, c, draws);
      b[i].dns == b[j].dns == DnsTime(p, c) &&
      b[i].tcp == b[j].tcp == TcpTime(p, c) &&
      b[i].ssl == b[j].ssl == SslTime(p, c) &&
      b[i].request == b[j].request == RequestTime(c)
  {
  }

  /** Different types have icons with different first code points. */
  lemma IconsDiffer(t1: ResourceType, t2: ResourceType)
    requires t1 != t2
    ensures TypeIcon(t1)[0] != TypeIcon(t2)[0]
  {
  }

  /** No two records of a batch share a name. */
  lemma NamesDistinct(p: Protocol, c: NetworkCondition, draws: seq<Draw>, i: nat, j: nat)
    requires c.bandwidth != 0.0
    requires i < j < |draws|
    ensures Batch(p, c, draws)[i].name != Batch(p, c, draws)[j].name
  {
    var b := Batch(p, c, draws);
    var t1, t2 := TypeNames[i % 5], TypeNames[j % 5];
    if t1 != t2 {
      IconsDiffer(t1, t2);
      assert b[i].name[0] == TypeIcon(t1)[0];
      assert b[j].name[0] == TypeIcon(t2)[0];
    } else {
      var prefix := TypeIcon(t1) + " " + ToUpper(TypeKey(t1)) + " ";
      assert b[i].name == prefix + NatToString(i + 1);
      assert b[j].name == prefix + NatToString(j + 1);
      if b[i].name == b[j].name {
        assert NatToString(i + 1) == b[i].name[|prefix|..];
        assert NatToString(j + 1) == b[j].name[|prefix|..];
        NatToStringInjective(i + 1, j + 1);
      }
    }
  }

  /** The label text of each resource type. */
  lemma TypeLabels()
    ensures ToUpper(TypeKey(Html)) == "HTML" && ToUpper(TypeKey(Css)) == "CSS" &&
            ToUpper(TypeKey(Js)) == "JS" && ToUpper(TypeKey(Image)) == "IMAGE" &&
            ToUpper(TypeKey(Api)) == "API"
  {
  }

  // ---------------------------------------------------------------------
  // Per-phase statistics

  datatype Phase = Dns | Tcp | Ssl | Request | Wait | Response

  /** The fixed order in which the statistics are reported. */
  const Phases: seq<Phase> := [Dns, Tcp, Ssl, Request, Wait, Response]

  const PhaseNames: seq<string> := ["Dns", "Tcp", "Ssl", "Request", "Wait", "Response"]

  /** The record field each phase reads. */
  function PhaseKey(ph: Phase): string {
    match ph
    case Dns => "dns"
    case Tcp => "tcp"
    case Ssl => "ssl"
    case Request => "request"
    case Wait => "wait"
    case Response => "response"
  }

  function PhaseColor(ph: Phase): string {
    match ph
    case Dns => "#ef4444"
    case Tcp => "#f97316"
    case Ssl => "#eab308"
    case Request => "#3b82f6"
    case Wait => "#06b6d4"
    case Response => "#10b981"
  }

  function PhaseValue(r: WaterfallRequest, ph: Phase): int {
    match ph
    case Dns => r.dns
    case Tcp => r.tcp
    case Ssl => r.ssl
    case Request => r.request
    case Wait => r.wait
    case Response => r.response
  }

  /** One phase's value in every record, in batch order. */
  function Times(data: seq<WaterfallRequest>, ph: Phase): (t: seq<int>)
    ensures |t| == |data|
    ensures forall j :: 0 <= j < |data| ==> t[j] == PhaseValue(data[j], ph)
  {
    seq(|data|, j requires 0 <= j < |data| => PhaseValue(data[j], ph))
  }

  /** The left fold `reduce((a, b) => a + b, 0)`. */
  function Sum(s: seq<int>): int {
    if s == [] then 0 else Sum(s[..|s| - 1]) + s[|s| - 1]
  }

  /** `Math.min(...s)` on a non-empty list: an element no larger than any other. */
  function MinOf(s: seq<int>): (m: int)
    requires |s| > 0
    ensures m in s
    ensures forall k :: 0 <= k < |s| ==> m <= s[k]
  {
    if |s| == 1 then s[0]
    else
      var rest := MinOf(s[..|s| - 1]);
      if s[|s| - 1] < rest then s[|s| - 1] else rest
  }

  /** `Math.max(...s)` on a non-empty list: an element no smaller than any other. */
  function MaxOf(s: seq<int>): (m: int)
    requires |s| > 0
    ensures m in s
    ensures forall k :: 0 <= k < |s| ==> s[k] <= m
  {
    if |s| == 1 then s[0]
    else
      var rest := MaxOf(s[..|s| - 1]);
      if s[|s| - 1] > rest then s[|s| - 1] else rest
  }

  /** The rounded arithmetic mean. */
  function Average(s: seq<int>): (a: int)
    requires |s| > 0
    ensures var mean := Sum(s) as real / |s| as real;
      mean - 0.5 < a as real <= mean + 0.5
  {
    Round(Sum(s) as real / |s| as real)
  }

  lemma {:induction false} SumAtLeast(s: seq<int>, lo: int)
    requires forall k :: 0 <= k < |s| ==> lo <= s[k]
    ensures |s| * lo <= Sum(s)
  {
    if s != [] {
      var init := s[..|s| - 1];
      SumAtLeast(init, lo);
      assert |s| * lo == |init| * lo + lo;
    }
  }

  lemma {:induction false} SumAtMost(s: seq<int>, hi: int)
    requires forall k :: 0 <= k < |s| ==> s[k] <= hi
    ensures Sum(s) <= |s| * hi
  {
    if s != [] {
      var init := s[..|s| - 1];
      SumAtMost(init, hi);
      assert |s| * hi == |init| * hi + hi;
    }
  }

  lemma MulStrict(a: real, b: real, k: real)
    requires a < b && k > 0.0
    ensures a * k < b * k
  {
  }

  lemma CastProduct(a: int, n: int)
    ensures (n * a) as real == a as real * n as real
  {
  }

  lemma QuotientBetween(total: int, n: int, lo: int, hi: int)
    requires n > 0 && n * lo <= total <= n * hi
    ensures lo as real <= total as real / n as real <= hi as real
  {
    CastProduct(lo, n);
    CastProduct(hi, n);
    RealQuotientBetween(total as real, n as real, lo as real, hi as real);
  }

  lemma RealQuotientBetween(t: real, k: real, lo: real, hi: real)
    requires k > 0.0 && lo * k <= t <= hi * k
    ensures lo <= t / k <= hi
  {
    var q := t / k;
    assert q * k == t;
    if q < lo {
      MulStrict(q, lo, k);
    }
    if q > hi {
      MulStrict(hi, q, k);
    }
  }

  /** The rounded mean of a non-empty list lies between its minimum and maximum. */
  lemma AverageBetween(s: seq<int>)
    requires |s| > 0
    ensures MinOf(s) <= Average(s) <= MaxOf(s)
  {
    SumAtLeast(s, MinOf(s));
    SumAtMost(s, MaxOf(s));
    QuotientBetween(Sum(s), |s|, MinOf(s), MaxOf(s));
    RoundBetween(Sum(s) as real / |s| as real, MinOf(s), MaxOf(s));
  }

  /** The list of one repeated value has that value as minimum, maximum and mean. */
  lemma ConstantStats(s: seq<int>, v: int)
    requires |s| > 0
    requires forall k :: 0 <= k < |s| ==> s[k] == v
    ensures MinOf(s) == v && MaxOf(s) == v && Average(s) == v
  {
    SumAtLeast(s, v);
    SumAtMost(s, v);
    QuotientBetween(Sum(s), |s|, v, v);
    RoundOfInteger(v);
  }

  /** The statistics of one phase over a non-empty batch. */
  function PhaseStat(data: seq<WaterfallRequest>, ph: Phase): (st: PhaseStats)
    requires |data| > 0
    ensures st.name == Capitalize(PhaseKey(ph))
    ensures st.minTime <= st.avgTime <= st.maxTime
    ensures forall j :: 0 <= j < |data| ==> st.minTime <= PhaseValue(data[j], ph) <= st.maxTime
    ensures exists j :: 0 <= j < |data| && PhaseValue(data[j], ph) == st.minTime
    ensures exists j :: 0 <= j < |data| && PhaseValue(data[j], ph) == st.maxTime
    ensures var mean := Sum(Times(data, ph)) as real / |data| as real;
      mean - 0.5 < st.avgTime as real <= mean + 0.5
    ensures st.color == PhaseColor(ph)
  {
    var times := Times(data, ph);
    AverageBetween(times);
    PhaseStats(Capitalize(PhaseKey(ph)), Average(times), MinOf(times), MaxOf(times), PhaseColor(ph))
  }

  /** Each reported name is the phase's field name with its first letter upper-cased. */
  lemma PhaseNamesCapitalized()
    ensures forall k :: 0 <= k < 6 ==> Capitalize(PhaseKey(Phases[k])) == PhaseNames[k]
  {
    forall k | 0 <= k < 6
      ensures Capitalize(PhaseKey(Phases[k])) == PhaseNames[k]
    {
      var key := PhaseKey(Phases[k]);
      assert Capitalize(key) == [UpperChar(key[0])] + key[1..];
      assert |Capitalize(key)| == |PhaseNames[k]|;
    }
  }

  /** Six statistics, one per phase in the fixed order, each named after its phase. */
  function GetPhaseStats(data: seq<WaterfallRequest>): (stats: seq<PhaseStats>)
    requires |data| > 0
    ensures |stats| == 6
    ensures forall k :: 0 <= k < 6 ==> stats[k].name == PhaseNames[k]
    ensures forall k :: 0 <= k < 6 ==> stats[k].minTime <= stats[k].avgTime <= stats[k].maxTime
    ensures forall k, j :: 0 <= k < 6 && 0 <= j < |data| ==>
      stats[k].minTime <= PhaseValue(data[j], Phases[k]) <= stats[k].maxTime
    ensures forall k :: 0 <= k < 6 ==>
      var mean := Sum(Times(data, Phases[k])) as real / |data| as real;
      mean - 0.5 < stats[k].avgTime as real <= mean + 0.5
  {
    PhaseNamesCapitalized();
    seq(6, k requires 0 <= k < 6 => PhaseStat(data, Phases[k]))
  }

  /** The reported minimum and maximum of each phase are values some record has. */
  lemma PhaseStatsAttained(data: seq<WaterfallRequest>, k: nat)
    requires |data| > 0 && k < 6
    ensures exists j :: 0 <= j < |data| && PhaseValue(data[j], Phases[k]) == GetPhaseStats(data)[k].minTime
    ensures exists j :: 0 <= j < |data| && PhaseValue(data[j], Phases[k]) == GetPhaseStats(data)[k].maxTime
  {
    assert GetPhaseStats(data)[k] == PhaseStat(data, Phases[k]);
  }

  lemma SharedPhaseStat(b: seq<WaterfallRequest>, k: nat, v: int)
    requires |b| > 0 && k < 6
    requires forall j :: 0 <= j < |b| ==> PhaseValue(b[j], Phases[k]) == v
    ensures var st := GetPhaseStats(b)[k]; st.minTime == st.avgTime == st.maxTime == v
  {
    ConstantStats(Times(b, Phases[k]), v);
  }

  lemma SharedPhasesStats(b: seq<WaterfallRequest>, dns: int, tcp: int, ssl: int, request: int)
    requires |b| > 0
    requires forall j :: 0 <= j < |b| ==>
      b[j].dns == dns && b[j].tcp == tcp && b[j].ssl == ssl && b[j].request == request
    ensures var st := GetPhaseStats(b);
      st[0].minTime == st[0].avgTime == st[0].maxTime == dns &&
      st[1].minTime == st[1].avgTime == st[1].maxTime == tcp &&
      st[2].minTime == st[2].avgTime == st[2].maxTime == ssl &&
      st[3].minTime == st[3].avgTime == st[3].maxTime == request
  {
    assert Phases[0] == Dns && Phases[1] == Tcp && Phases[2] == Ssl && Phases[3] == Request;
    SharedPhaseStat(b, 0, dns);
    SharedPhaseStat(b, 1, tcp);
    SharedPhaseStat(b, 2, ssl);
    SharedPhaseStat(b, 3, request);
  }

  /** Over a generated batch the dns, tcp, ssl and request statistics collapse to
      the batch's shared value: minimum, mean and maximum coincide. */
  lemma GeneratedBatchStats(p: Protocol, c: NetworkCondition, draws: seq<Draw>)
    requires c.bandwidth != 0.0
    requires |draws| == NumRequests(p)
    ensures var st := GetPhaseStats(Batch(p, c, draws));
      st[0].minTime == st[0].avgTime == st[0].maxTime == DnsTime(p, c) &&
      st[1].minTime == st[1].avgTime == st[1].maxTime == TcpTime(p, c) &&
      st[2].minTime == st[2].avgTime == st[2].maxTime == SslTime(p, c) &&
      st[3].minTime == st[3].avgTime == st[3].maxTime == RequestTime(c)
  {
    var b := Batch(p, c, draws);
    forall j | 0 <= j < |b|
      ensures b[j].dns == DnsTime(p, c) && b[j].tcp == TcpTime(p, c)
      ensures b[j].ssl == SslTime(p, c) && b[j].request == RequestTime(c)
    {
      SharedPhases(p, c, draws, j, j);
    }
    SharedPhasesStats(b, DnsTime(p, c), TcpTime(p, c), SslTime(p, c), RequestTime(c));
  }
}
